=== FILE: README.md ===
# To-do list: the task-list state machine

A model of the to-do application in `index.js`. The DOM is abstracted away. What
remains is the root `TodoList` component's task list, `{id, text, completed}` records
kept in order, with its three handlers (add, toggle, delete) and the storage slot
`"tasks"` that each change overwrites. Around it sit the two child components' local
state. `AddTask` keeps a shadow copy of the text field and guards submission with
`trim()`. `Task` holds the two-press delete confirmation. The children branch of
`createElement` is modelled too.

Modules, one per concept:

- `Wrappers`: `Option`, used for the storage slot and for the requests a child sends
  its parent.
- `JsString`: ECMAScript's `trim()` (WhiteSpace and LineTerminator code points) and
  the guard `if (value.trim())`.
- `Tasks`: the `Task` record and the list operations `find`, toggle-in-place and
  `filter`, each with an independent description: first match, index update, kept
  positions.
- `TodoList`: the root state, meaning the list plus the storage slot. It covers the
  constructor (saved list or the three seed records), the three handlers and the
  `Synced` invariant, which says the slot agrees with memory.
- `AddTask` and `TaskItem` (the source's `Task` component): the child components'
  handlers. Each returns its next state and the request it passes to the parent, if
  it passes one.
- `Element`: the `appendChild` calls `createElement` makes for its children argument,
  and the child list they leave. The DOM's `appendChild` moves an element that is
  already a child to the end, so an element listed twice ends up once, at its last
  position.
- `App`: the mounted page (`Page`) as a sequence of handler runs. Any change to the list ends
  in the root's re-render, which builds fresh children: an empty `AddTask` and one
  `Task` per record with no delete pending. `Run` folds events, and the page-reload
  round trip is proved over any run.

The storage slot is an ordinary field, `TodoList.State.stored`. It holds the parsed
value of the slot, `None` when the key was never written. Serialising with
`JSON.stringify` and parsing with `JSON.parse` are taken to be mutual inverses on task
lists. The clock reading `Date.now()` becomes the parameter `newId` / `id`.

Behaviour that follows from the code as written, and that the model keeps:

- Delete saves even when no record carries the id (`index.js:162-166`). The list is
  unchanged, but the slot is written.
- Toggle with no matching record neither saves nor re-renders (`index.js:155`). Pending
  delete confirmations therefore survive it.
- Ids are not assumed unique. Toggling from a row flips the *first* record carrying
  that row's id, which may belong to another row. Delete removes *every* record
  carrying it.
- Any re-render of the root discards every pending delete confirmation
  (`index.js:171-183`). A record therefore disappears only after two presses on a
  rendered row carrying its id, with no list change in between. Typing, a blank
  submission, and first presses on other rows may come between the two presses.
- The code does not guard `JSON.parse` (`index.js:129`). A stored value that fails to
  parse is an unhandled fault, not a fall-back to the seed. The model takes the slot
  as already parsed, and leaves that path out (see below).

## Model

| member | source | states |
|---|---|---|
| JsString.LeadingBlanks | index.js:99 | the count of leading characters `trim()` drops: all of them whitespace, and the next character, if any, is not |
| JsString.TrailingBlanks | index.js:99 | the count of trailing characters `trim()` drops: all of them whitespace, and the character before them, if any, is not |
| JsString.Trim | index.js:99 | `trim()` yields a slice that neither starts nor ends with whitespace, and it is empty exactly when the input is all whitespace (or empty) |
| AddTask.OnAddTask | index.js:98-104 | a request reaches the parent iff the input is not blank; it carries the untrimmed text and clears the shadow copy; blank input leaves the component as it was |
| TaskItem.OnDelete | index.js:56-63 | the parent's delete is requested iff a confirmation is pending, and then with the component's own id; otherwise the press only sets the confirmation |
| TaskItem.SecondPressRequestsDelete | index.js:48-63 | a freshly constructed Task requests nothing on the first press and its own id on the second |
| Element.NoCallsIffNothingAppendable | index.js:11-17 | no `appendChild` call is made iff every array entry is neither a string nor an element |
| Element.CallsAppend | index.js:11-17 | the calls made for a concatenated array are the calls for each part, in order |
| Element.WithoutAbsent | index.js:15 | taking out an element that is not a child leaves the children unchanged |
| Element.WithoutAt | index.js:15 | taking an element out of children with no repeated element removes exactly its one position, the rest staying in order |
| Element.AppendChild | index.js:13-15 | the appended node becomes the last child and an element then occurs nowhere else; a text node, or an element that was not a child, is added after the unchanged children; an element that was a child leaves its one position, the others keeping their order |
| Element.AfterAppends | index.js:11-17 | after a run of calls the node of the last call is the last child, and there are never more children than calls |
| Element.LastOccurrencesExact | index.js:11-17 | the reference child list holds exactly the nodes that were passed, with no element twice |
| Element.LastOccurrencesSnocElement | index.js:14-15 | one more element call at the end takes that element out of its earlier place in the reference list and puts it last |
| Element.LastOccurrencesSnocText | index.js:12-13 | one more string at the end adds its text node after the unchanged reference list |
| Element.LastOccurrencesSnoc | index.js:11-17 | one more call at the end does to the reference list exactly what `appendChild` does to a child list |
| Element.AfterAppendsKeepsLast | index.js:11-17 | performing the calls in order leaves every text node and the last occurrence of each element, in call order |
| Element.VisitSnoc | index.js:11-17 | the callback for one more entry performs exactly that entry's call: a text node for a string, the element itself, nothing otherwise |
| Element.AppendEach | index.js:11-17 | the `forEach` loop leaves the children that performing the entries' calls in order leaves |
| Element.AppendChildren | index.js:10-20 | an array yields the last occurrences of its calls, with no element twice; a lone string yields one text node; anything else yields nothing |
| Tasks.FindFirst | index.js:154 | `find` reports nothing iff no record carries the id, and otherwise the position of the first record that does |
| Tasks.ToggleFirst | index.js:154-156 | toggling keeps length, order, ids and texts; exactly the first record carrying the id has its flag changed |
| Tasks.ToggleFirstAtFind | index.js:154-156 | toggling is the identity when `find` fails and otherwise a flag flip at the position `find` reports |
| Tasks.ToggleTwice | index.js:154-156 | toggling the same id twice restores the list |
| Tasks.RemoveId | index.js:163 | no record `filter` keeps carries the id, the result is no longer than the list, and on an absent id it is the list unchanged |
| Tasks.KeptFrom | index.js:163 | the positions the filter keeps, in increasing order: every such position carries another id, and every position carrying another id is listed |
| Tasks.RemoveIdSelects | index.js:163 | the filtered list is the list of records at the kept positions, in order, so the relative order of the survivors is preserved |
| Tasks.RemoveIdMembers | index.js:163 | the records `filter` keeps are exactly the records of the list whose id differs |
| TodoList.Init | index.js:124-135 | the constructor uses the saved list when there is one, and otherwise three incomplete records with ids 1, 2, 3; it does not write the slot |
| TodoList.OnAddTask | index.js:142-151 | one new incomplete record with the given id and text is appended after the unchanged earlier records, and the slot then holds the new list |
| TodoList.OnToggleTask | index.js:153-160 | on an absent id nothing changes, the slot included; otherwise only the first matching record's flag flips and the slot holds the new list |
| TodoList.OnDeleteTask | index.js:162-166 | the records left are the records at the positions carrying another id, in their original order and with their multiplicity (the whole list on an absent id), and the slot holds the new list |
| TodoList.ReloadRestores | index.js:124-139 | when the slot agrees with memory, constructing from the slot rebuilds the same state |
| TodoList.HandlersKeepSynced | index.js:138-166 | the constructor and each of the three handlers leave the slot agreeing with memory |
| TodoList.ToggleTwiceRestores | index.js:153-160 | toggling the same id twice through the handler gives back the original list |
| App.Render | index.js:168-186 | a render keeps the list and builds fresh children: an empty `AddTask` and, per record in order, a `Task` mounted from it with no delete pending |
| App.Step | index.js:56-166 | any change of the root's state ends in a save and a full re-render; only a submission grows the list and only a delete press shrinks it |
| App.MountWf | index.js:168-191 | after page load, each rendered row mirrors the record at its position and the slot agrees with memory |
| App.StepKeepsWf | index.js:56-166 | every handler run keeps rows mirroring records and the slot agreeing with memory |
| App.RunThenReload | index.js:124-166 | after any sequence of handler runs, reloading the page from the slot yields the in-memory list |
| App.DeleteTakesTwoPresses | index.js:56-63 | a first press on a row changes neither the list nor the slot; a second press on the same row removes every record with its id, keeps the rest in order and saves |
| App.OnlyConfirmedPressRemoves | index.js:56-166 | a record carrying an id disappears only through a delete press on a rendered row of that id whose confirmation was already pending |
| App.ToggleResetsConfirmations | index.js:153-186 | a toggle from a rendered row re-renders the list, leaving no delete confirmation pending |
| App.InputOnlyShadows | index.js:94-96 | typing changes only the shadow copy: list, slot and rows, pending confirmations included, are untouched |
| App.BlankAddIsIgnored | index.js:98-104 | submitting blank input changes nothing, the typed text included |
| App.AddAppends | index.js:98-104 | submitting non-blank input appends one incomplete record holding the text as typed, saves, and leaves an empty input and no pending confirmation |
| App.Walkthrough | index.js:124-166 | from the seed, toggle record 2, add a text, then press delete twice on record 1: records 2 (completed) and 3 remain, followed by the new record |

## Left out

- Building DOM nodes, `setAttribute`, `addEventListener`, `replaceWith`, and the
  `getDomNode`/`update` mechanics (`index.js:2-8`, `index.js:22-28`, `index.js:31-45`).
  These are host DOM calls. A re-render is modelled only by its effect on child
  component state.
- `render()` markup and inline style strings (`index.js:69-83`, `index.js:106-120`,
  `index.js:168-186`): presentation only. The root's render is modelled only by the
  child component states it creates (`App.Render`).
- A failing `localStorage.setItem` (a full quota, say; `index.js:138-140`). `Save` is
  a write that always succeeds. In the source a throwing write would leave the list
  changed in memory, the slot as it was and `update()` skipped. `Synced`,
  `TodoList.HandlersKeepSynced` and `App.RunThenReload` hold only because every save
  succeeds.
- Other tabs or windows of the same site writing the shared `"tasks"` key. Each save
  overwrites the slot (`index.js:139`), and nothing listens for the `storage` event. So
  with two pages open, the last writer wins and a page's memory does not follow the
  other page's writes. The model has one page, and the slot changes only through its
  own saves. `Synced`, `TodoList.HandlersKeepSynced` and `App.RunThenReload` rely on
  this.
- `localStorage`, `JSON.parse` and `JSON.stringify`. They are replaced by the parsed
  slot `Option<seq<Task>>`. A stored value that fails to parse, or is not a list of
  records, is not modelled because the source does not guard it. The empty string
  counts as "nothing saved" in the source, but a save never writes it, so it is not
  modelled either.
- `Date.now()`: the id is a parameter, and its uniqueness and growth are not claimed.
  App.Walkthrough therefore requires the new id to differ from 1.
- Clearing the `#new-todo` field directly, and the `DOMContentLoaded` mount
  (`index.js:101`, `index.js:189-191`): DOM plumbing.
- `Task.onToggle` (`index.js:65-67`) only forwards the row's id. It is folded into the
  `CheckboxChange` event of `App.Step`.
- Clicks on a row that is not rendered cannot happen. `App.Step` treats them as
  no-ops.

=== FILE: app.dfy ===
/** The mounted application: the root component with the child instances its
    last render created. A handler that changes the task list ends in the
    root's `update()`, which renders every child afresh: a new `AddTask`
    with nothing typed and one new `Task` per record with no delete pending. */
module App {
  import opened Wrappers
  import opened Tasks
  import opened JsString
  import TodoList
  import AddTask
  import TaskItem

  /** The page: the root's state and the child instances of its last render. */
  datatype Page = Page(list: TodoList.State, adder: AddTask.State, rows: seq<TaskItem.State>)

  /** One user action. `newId` is the clock reading taken when a record is
      created; a row is addressed by its position in the rendered list. */
  datatype Event =
    | Input(value: string)
    | AddClick(newId: int)
    | CheckboxChange(row: nat)
    | DeleteClick(row: nat)

  /** The root's `render()`: fresh children for the current list. */
  function Render(list: TodoList.State): (a: Page)
    ensures a.list == list && a.adder == AddTask.Fresh
    ensures |a.rows| == |list.tasks|
    ensures forall i :: 0 <= i < |a.rows| ==> a.rows[i] == TaskItem.Mount(list.tasks[i])
  {
    Page(list, AddTask.Fresh, seq(|list.tasks|, i requires 0 <= i < |list.tasks| => TaskItem.Mount(list.tasks[i])))
  }

  /** Page load: construct the root from the slot and render it. */
  function Mount(saved: Option<seq<Task>>): Page {
    Render(TodoList.Init(saved))
  }

  /** One handler run to completion. Clicks on a row that is not rendered
      cannot happen and leave everything as it is. */
  function Step(a: Page, e: Event): (r: Page)
    ensures r.list != a.list ==> r == Render(r.list) && r.list.stored == Some(r.list.tasks)
    ensures |r.list.tasks| > |a.list.tasks| ==> e.AddClick?
    ensures |r.list.tasks| < |a.list.tasks| ==> e.DeleteClick?
  {
    match e
    case Input(value) =>
      a.(adder := AddTask.State(value))
    case AddClick(newId) =>
      var o := AddTask.OnAddTask(a.adder);
      if o.request.Some? then Render(TodoList.OnAddTask(a.list, newId, o.request.value))
      else a.(adder := o.next)
    case CheckboxChange(i) =>
      if i < |a.rows| && HasId(a.list.tasks, a.rows[i].props.id) then
        Render(TodoList.OnToggleTask(a.list, a.rows[i].props.id))
      else a
    case DeleteClick(i) =>
      if i < |a.rows| then
        var o := TaskItem.OnDelete(a.rows[i]);
        if o.deleteRequest.Some? then Render(TodoList.OnDeleteTask(a.list, o.deleteRequest.value))
        else a.(rows := a.rows[i := o.next])
      else a
  }

  /** Handlers run one after another, never interleaved. */
  function Run(a: Page, events: seq<Event>): Page
    decreases |events|
  {
    if |events| == 0 then a else Run(Step(a, events[0]), events[1..])
  }

  /** What holds between handlers: each row was rendered from the record at
      its position, and the slot agrees with memory. */
  predicate Wf(a: Page) {
    && TodoList.Synced(a.list)
    && |a.rows| == |a.list.tasks|
    && forall i :: 0 <= i < |a.rows| ==> a.rows[i].props == a.list.tasks[i]
  }

  lemma MountWf(saved: Option<seq<Task>>)
    ensures Wf(Mount(saved))
  {
  }

  lemma StepKeepsWf(a: Page, e: Event)
    requires Wf(a)
    ensures Wf(Step(a, e))
  {
  }

  /** After any run of handlers from page load, reloading the page from the
      slot yields the list that was in memory. */
  lemma {:induction false} RunThenReload(a: Page, events: seq<Event>)
    requires Wf(a)
    ensures Wf(Run(a, events))
    ensures TodoList.Init(Run(a, events).list.stored) == Run(a, events).list
    decreases |events|
  {
    if |events| == 0 {
      TodoList.ReloadRestores(a.list);
    } else {
      StepKeepsWf(a, events[0]);
      RunThenReload(Step(a, events[0]), events[1..]);
    }
  }

  /** The first press on a row with no delete pending leaves the list and
      the slot alone; a second press on the same row removes every record
      carrying that row's id, keeps the others, and saves. */
  lemma DeleteTakesTwoPresses(a: Page, i: nat)
    requires Wf(a) && i < |a.rows| && !a.rows[i].deleteConfirmation
    ensures Step(a, DeleteClick(i)).list == a.list
    ensures Step(a, DeleteClick(i)).rows[i].deleteConfirmation
    ensures var b := Step(Step(a, DeleteClick(i)), DeleteClick(i));
            && b.list.tasks == RemoveId(a.list.tasks, a.list.tasks[i].id)
            && !HasId(b.list.tasks, a.list.tasks[i].id)
            && b.list.stored == Some(b.list.tasks)
  {
  }

  /** The converse: a record carrying `id` disappears only through a press on
      a row of that id whose delete confirmation was already pending. */
  lemma OnlyConfirmedPressRemoves(a: Page, e: Event, id: int)
    requires Wf(a) && HasId(a.list.tasks, id) && !HasId(Step(a, e).list.tasks, id)
    ensures e.DeleteClick? && e.row < |a.rows|
    ensures a.rows[e.row].deleteConfirmation && a.rows[e.row].props.id == id
  {
  }

  /** A re-render of the root discards every pending delete confirmation:
      a successful toggle in between means a later delete press starts over. */
  lemma ToggleResetsConfirmations(a: Page, j: nat)
    requires Wf(a) && j < |a.rows|
    ensures forall i :: 0 <= i < |Step(a, CheckboxChange(j)).rows| ==>
              !Step(a, CheckboxChange(j)).rows[i].deleteConfirmation
  {
    assert HasId(a.list.tasks, a.rows[j].props.id) by {
      assert a.list.tasks[j].id == a.rows[j].props.id;
    }
  }

  /** Typing only updates the shadow copy of the field: the list, the slot
      and the rows, pending confirmations included, stay as they are. */
  lemma InputOnlyShadows(a: Page, value: string)
    ensures Step(a, Input(value)).adder.inputValue == value
    ensures Step(a, Input(value)).list == a.list
    ensures Step(a, Input(value)).rows == a.rows
  {
  }

  /** A whitespace-only submission changes nothing, not even the typed text. */
  lemma BlankAddIsIgnored(a: Page, newId: int)
    requires IsBlank(a.adder.inputValue)
    ensures Step(a, AddClick(newId)) == a
  {
  }

  /** Any other submission appends one incomplete record with the text as
      typed and leaves an empty input behind. */
  lemma AddAppends(a: Page, newId: int)
    requires !IsBlank(a.adder.inputValue)
    ensures var b := Step(a, AddClick(newId));
            && b.list.tasks == a.list.tasks + [Task(newId, a.adder.inputValue, false)]
            && b.list.stored == Some(b.list.tasks)
            && b.adder.inputValue == ""
            && forall i :: 0 <= i < |b.rows| ==> !b.rows[i].deleteConfirmation
  {
    var b := Step(a, AddClick(newId));
    assert b.list.tasks[..|a.list.tasks|] == a.list.tasks;
  }

  const Homework := TodoList.Seed[0]
  const Practice := TodoList.Seed[1]
  const GoHome := TodoList.Seed[2]

  lemma WalkToggle()
    ensures Wf(Step(Mount(None), CheckboxChange(1)))
    ensures Step(Mount(None), CheckboxChange(1)).list.tasks == [Homework, Flip(Practice), GoHome]
  {
    var a0 := Mount(None);
    MountWf(None);
    StepKeepsWf(a0, CheckboxChange(1));
    assert a0.list.tasks == [Homework, Practice, GoHome];
    assert a0.rows[1].props.id == 2;
    assert FindFirst([Homework, Practice, GoHome], 2) == Some(1);
    ToggleFirstAtFind([Homework, Practice, GoHome], 2);
  }

  lemma WalkAdd(a: Page, clock: int, text: string)
    requires Wf(a) && a.list.tasks == [Homework, Flip(Practice), GoHome]
    requires a.adder.inputValue == text && !IsBlank(text)
    ensures Wf(Step(a, AddClick(clock)))
    ensures Step(a, AddClick(clock)).list.tasks ==
              [Homework, Flip(Practice), GoHome, Task(clock, text, false)]
    ensures !Step(a, AddClick(clock)).rows[0].deleteConfirmation
  {
    AddAppends(a, clock);
    StepKeepsWf(a, AddClick(clock));
  }

  lemma WalkDelete(a: Page, t4: Task)
    requires Wf(a) && a.list.tasks == [Homework, Flip(Practice), GoHome, t4]
    requires !a.rows[0].deleteConfirmation && t4.id != 1
    ensures Run(a, [DeleteClick(0), DeleteClick(0)]).list.tasks == [Flip(Practice), GoHome, t4]
  {
    DeleteTakesTwoPresses(a, 0);
    var a4 := Step(a, DeleteClick(0));
    var a5 := Step(a4, DeleteClick(0));
    assert RemoveId([Homework, Flip(Practice), GoHome, t4], 1) == [Flip(Practice), GoHome, t4] by {
      assert [Homework, Flip(Practice), GoHome, t4][1..] == [Flip(Practice), GoHome, t4];
      assert [Flip(Practice), GoHome, t4][1..] == [GoHome, t4];
      assert [GoHome, t4][1..] == [t4];
    }
    assert Run(a4, [DeleteClick(0)]) == a5;
  }

  /** The walk-through: from the seed, toggle record 2, add a non-blank
      text (say "Buy milk") under a clock reading other than 1, press delete
      twice on record 1. Records 2 and 3 remain, 2 completed, followed by the
      new one. */
  lemma Walkthrough(clock: int, text: string)
    requires !IsBlank(text) && clock != 1
    ensures var a := Run(Mount(None), [CheckboxChange(1), Input(text), AddClick(clock), DeleteClick(0), DeleteClick(0)]);
            a.list.tasks == [Flip(Practice), GoHome, Task(clock, text, false)]
  {
    var a0 := Mount(None);
    var a1 := Step(a0, CheckboxChange(1));
    WalkToggle();
    var a2 := Step(a1, Input(text));
    StepKeepsWf(a1, Input(text));
    WalkAdd(a2, clock, text);
    var a3 := Step(a2, AddClick(clock));
    WalkDelete(a3, Task(clock, text, false));
    assert Run(a2, [AddClick(clock), DeleteClick(0), DeleteClick(0)]) == Run(a3, [DeleteClick(0), DeleteClick(0)]);
    assert Run(a1, [Input(text), AddClick(clock), DeleteClick(0), DeleteClick(0)]) == Run(a2, [AddClick(clock), DeleteClick(0), DeleteClick(0)]);
  }
}

=== FILE: components.dfy ===
/** The `AddTask` component: a shadow copy of the text field and the guarded
    add button. */
module AddTask {
  import opened Wrappers
  import opened JsString

  datatype State = State(inputValue: string)

  /** A freshly constructed instance: nothing typed yet. */
  const Fresh: State := State("")

  /** What one handler run leaves behind: the component's next state and the
      text it passed to the parent's `onAddTask`, if it called it. */
  datatype Outcome = Outcome(next: State, request: Option<string>)

  /** `onAddTask`: blank input is ignored; any other input goes to the parent
      exactly as typed, untrimmed, and the shadow copy is cleared. */
  function OnAddTask(a: State): (r: Outcome)
    ensures r.request.Some? <==> !IsBlank(a.inputValue)
    ensures r.request.Some? ==> r.request.value == a.inputValue && r.next == Fresh
    ensures r.request.None? ==> r.next == a
  {
    if HasText(a.inputValue) then Outcome(Fresh, Some(a.inputValue))
    else Outcome(a, None)
  }
}

/** The `Task` component: one rendered record plus the two-press delete
    confirmation it owns. */
module TaskItem {
  import opened Wrappers
  import opened Tasks

  /** `props` is the copy of the record the parent rendered it from. */
  datatype State = State(props: Task, deleteConfirmation: bool)

  /** A freshly constructed instance for a record: no delete pending. */
  function Mount(t: Task): State {
    State(t, false)
  }

  /** The component's next state and the id it passed to the parent's
      `onDelete`, if it called it. */
  datatype Outcome = Outcome(next: State, deleteRequest: Option<int>)

  /** `onDelete`: the first press only marks the button; a press while it is
      marked asks the parent to delete this record's id. */
  function OnDelete(c: State): (r: Outcome)
    ensures r.deleteRequest.Some? <==> c.deleteConfirmation
    ensures r.deleteRequest.Some? ==> r.deleteRequest.value == c.props.id && r.next == c
    ensures r.deleteRequest.None? ==> r.next.props == c.props && r.next.deleteConfirmation
  {
    if c.deleteConfirmation then Outcome(c, Some(c.props.id))
    else Outcome(c.(deleteConfirmation := true), None)
  }

  /** A fresh instance asks for nothing on the first press and for its own
      record's id on the second. */
  lemma {:induction false} SecondPressRequestsDelete(t: Task)
    ensures OnDelete(Mount(t)).deleteRequest == None
    ensures OnDelete(OnDelete(Mount(t)).next).deleteRequest == Some(t.id)
  {
    var first := OnDelete(Mount(t));
    assert first.next.deleteConfirmation;
  }
}

=== FILE: element.dfy ===
/** The children branch of `createElement`: the `appendChild` calls it makes,
    and the child list the new element ends up with. `appendChild` of an
    element that is already a child moves it to the end, so an element named
    twice in the array ends up once, at its last position; every string gives
    a new text node. Attributes and listeners are host calls and are not part
    of this model. */
module Element {

  /** An element built earlier; only its identity matters here. */
  type Handle = nat

  /** One entry of a children array, by its run-time type: a string, an
      element, or any other value. */
  datatype Child = Text(data: string) | Node(handle: Handle) | Other

  /** The `children` argument: an array, a lone string, or anything else
      (`null`, `undefined`, a number, ...). */
  datatype Children = Many(items: seq<Child>) | Single(text: string) | Absent

  /** A child node of the new element. Each `TextNode` is a node of its own,
      created for one string; an `ElementNode` is the element it names. */
  datatype Appended = TextNode(data: string) | ElementNode(handle: Handle)

  /** No element occurs twice among `s`. */
  predicate NoRepeatedElement(s: seq<Appended>) {
    forall i, j :: 0 <= i < j < |s| && s[i].ElementNode? ==> s[i] != s[j]
  }

  /** What one array entry passes to `appendChild`: a text node, the element
      itself, or nothing. */
  function Contribution(c: Child): seq<Appended> {
    match c
    case Text(s) => [TextNode(s)]
    case Node(h) => [ElementNode(h)]
    case Other => []
  }

  /** The arguments of the `appendChild` calls, in array order. */
  function Calls(items: seq<Child>): (r: seq<Appended>)
    ensures |r| <= |items|
  {
    if |items| == 0 then []
    else
      assert forall k :: 1 <= k < |items| ==> items[k] == items[1..][k - 1];
      Contribution(items[0]) + Calls(items[1..])
  }

  /** No `appendChild` call is made exactly when no entry is a string or an
      element. */
  lemma {:induction false} NoCallsIffNothingAppendable(items: seq<Child>)
    ensures Calls(items) == [] <==> forall k :: 0 <= k < |items| ==> items[k].Other?
  {
    if |items| > 0 {
      NoCallsIffNothingAppendable(items[1..]);
      assert forall k :: 1 <= k < |items| ==> items[k] == items[1..][k - 1];
    }
  }

  /** The calls for a concatenated array are the calls for each part. */
  lemma {:induction false} CallsAppend(a: seq<Child>, b: seq<Child>)
    ensures Calls(a + b) == Calls(a) + Calls(b)
  {
    if |a| > 0 {
      assert (a + b)[0] == a[0];
      assert (a + b)[1..] == a[1..] + b;
      CallsAppend(a[1..], b);
      assert Calls(a + b) == Contribution(a[0]) + (Calls(a[1..]) + Calls(b));
    } else {
      assert a + b == b;
    }
  }

  /** The child list with element `h` taken out, the rest in order. */
  function Without(kids: seq<Appended>, h: Handle): (r: seq<Appended>)
    ensures |r| <= |kids|
    ensures forall k :: 0 <= k < |r| ==> r[k] != ElementNode(h)
  {
    if |kids| == 0 then []
    else
      assert kids == [kids[0]] + kids[1..];
      (if kids[0] == ElementNode(h) then [] else [kids[0]]) + Without(kids[1..], h)
  }

  /** Taking an element out of a concatenation takes it out of each part. */
  lemma {:induction false} WithoutAppend(a: seq<Appended>, b: seq<Appended>, h: Handle)
    ensures Without(a + b, h) == Without(a, h) + Without(b, h)
  {
    if |a| > 0 {
      assert (a + b)[0] == a[0];
      assert (a + b)[1..] == a[1..] + b;
      WithoutAppend(a[1..], b, h);
    } else {
      assert a + b == b;
    }
  }

  /** Taking out an element that is not there changes nothing. */
  lemma {:induction false} WithoutAbsent(kids: seq<Appended>, h: Handle)
    requires ElementNode(h) !in kids
    ensures Without(kids, h) == kids
  {
    if |kids| > 0 {
      assert kids == [kids[0]] + kids[1..];
      WithoutAbsent(kids[1..], h);
    }
  }

  /** Taking out an element that occurs once removes just that position. */
  lemma {:induction false} WithoutOnce(kids: seq<Appended>, p: nat, h: Handle)
    requires p < |kids| && kids[p] == ElementNode(h)
    requires ElementNode(h) !in kids[..p] && ElementNode(h) !in kids[p + 1..]
    ensures Without(kids, h) == kids[..p] + kids[p + 1..]
  {
    var pre, post := kids[..p], kids[p + 1..];
    var mid := [kids[p]] + post;
    assert kids == pre + mid;
    WithoutAbsent(pre, h);
    WithoutAbsent(post, h);
    assert [kids[p]][1..] == [];
    assert Without([kids[p]], h) == [] by {
      assert Without([kids[p]], h) == [] + Without([], h);
    }
    WithoutAppend([kids[p]], post, h);
    assert Without(mid, h) == post;
    WithoutAppend(pre, mid, h);
  }

  /** An element that occurs once in a list without repeated elements occurs
      nowhere else. */
  lemma {:induction false} OnlyPlace(kids: seq<Appended>, p: nat)
    requires NoRepeatedElement(kids) && p < |kids| && kids[p].ElementNode?
    ensures kids[p] !in kids[..p] && kids[p] !in kids[p + 1..]
  {
    var pre, post := kids[..p], kids[p + 1..];
    forall k | 0 <= k < |pre| ensures pre[k] != kids[p] {
      assert pre[k] == kids[k];
    }
    forall k | 0 <= k < |post| ensures post[k] != kids[p] {
      assert post[k] == kids[p + 1 + k];
    }
  }

  /** Taking out an element of a list without repeated elements removes just
      its one position. */
  lemma {:induction false} WithoutAt(kids: seq<Appended>, h: Handle)
    requires NoRepeatedElement(kids) && ElementNode(h) in kids
    ensures exists p :: 0 <= p < |kids| && kids[p] == ElementNode(h) &&
              Without(kids, h) == kids[..p] + kids[p + 1..]
  {
    var p :| 0 <= p < |kids| && kids[p] == ElementNode(h);
    OnlyPlace(kids, p);
    WithoutOnce(kids, p, h);
  }

  /** The DOM's `appendChild`: the node becomes the last child; an element
      that was already a child leaves its old place, a new text node is
      simply added. */
  function AppendChild(kids: seq<Appended>, n: Appended): (r: seq<Appended>)
    ensures |r| > 0 && r[|r| - 1] == n
    ensures n.ElementNode? ==> forall k :: 0 <= k < |r| - 1 ==> r[k] != n
    ensures n.TextNode? ==> r[..|r| - 1] == kids
    ensures n.ElementNode? && n !in kids ==> r == kids + [n]
    ensures n.ElementNode? && NoRepeatedElement(kids) && n in kids ==>
              exists p :: 0 <= p < |kids| && kids[p] == n && r == kids[..p] + kids[p + 1..] + [n]
  {
    var before := if n.ElementNode? then Without(kids, n.handle) else kids;
    assert (before + [n])[..|before|] == before;
    if n.ElementNode? && n !in kids then
      WithoutAbsent(kids, n.handle);
      before + [n]
    else if n.ElementNode? && NoRepeatedElement(kids) then
      WithoutAt(kids, n.handle);
      before + [n]
    else
      before + [n]
  }

  /** The children after the given calls, performed in order. */
  function AfterAppends(calls: seq<Appended>): (r: seq<Appended>)
    ensures |r| <= |calls|
    ensures |calls| > 0 ==> |r| > 0 && r[|r| - 1] == calls[|calls| - 1]
  {
    if |calls| == 0 then []
    else
      var init := calls[..|calls| - 1];
      assert calls == init + [calls[|calls| - 1]];
      AppendChild(AfterAppends(init), calls[|calls| - 1])
  }

  /** Reference definition: the calls with every element dropped that is
      named again later. */
  function LastOccurrences(calls: seq<Appended>): (r: seq<Appended>)
    ensures |r| <= |calls|
  {
    if |calls| == 0 then []
    else
      var head := if calls[0].ElementNode? && calls[0] in calls[1..] then [] else [calls[0]];
      head + LastOccurrences(calls[1..])
  }

  /** The reference list holds every node that was appended, and nothing
      else, and no element twice. */
  lemma {:induction false} LastOccurrencesExact(calls: seq<Appended>)
    ensures forall x :: x in LastOccurrences(calls) <==> x in calls
    ensures NoRepeatedElement(LastOccurrences(calls))
  {
    if |calls| > 0 {
      var rest := LastOccurrences(calls[1..]);
      LastOccurrencesExact(calls[1..]);
      assert calls == [calls[0]] + calls[1..];
      var head := if calls[0].ElementNode? && calls[0] in calls[1..] then [] else [calls[0]];
      var r := head + rest;
      assert r == LastOccurrences(calls);
      forall x | x in calls ensures x in r {
        if x != calls[0] {
          assert x in calls[1..];
        }
      }
      forall i, j | 0 <= i < j < |r| && r[i].ElementNode? ensures r[i] != r[j] {
        if |head| == 1 && i == 0 {
          assert r[j] == rest[j - 1];
          assert rest[j - 1] in rest;
        } else {
          assert r[i] == rest[i - |head|] && r[j] == rest[j - |head|];
        }
      }
    }
  }

  /** The first call survives a later call of element `x` exactly when
      removing `x` leaves it in place. */
  lemma {:induction false} HeadAfterSnoc(y: Appended, s: seq<Appended>, x: Appended)
    requires x.ElementNode?
    ensures (if y.ElementNode? && y in s + [x] then [] else [y])
            == Without(if y.ElementNode? && y in s then [] else [y], x.handle)
  {
    assert [y][1..] == [];
    assert y in s + [x] <==> y in s || y == x;
    assert Without([], x.handle) == [];
    assert Without([y], x.handle) == (if y == x then [] else [y]) + Without([], x.handle);
  }

  /** The first call of `a`, if it survives, followed by the rest. */
  lemma {:induction false} LastOccurrencesCons(a: seq<Appended>)
    requires |a| > 0
    ensures LastOccurrences(a) ==
              (if a[0].ElementNode? && a[0] in a[1..] then [] else [a[0]]) + LastOccurrences(a[1..])
  {
  }

  /** The inductive step of `LastOccurrencesSnocElement`. */
  lemma {:induction false} SnocElementStep(a: seq<Appended>, x: Appended)
    requires |a| > 0 && x.ElementNode?
    requires LastOccurrences(a[1..] + [x]) == Without(LastOccurrences(a[1..]), x.handle) + [x]
    ensures LastOccurrences(a + [x]) == Without(LastOccurrences(a), x.handle) + [x]
  {
    var ax := a + [x];
    assert ax[0] == a[0];
    assert ax[1..] == a[1..] + [x];
    var rest := LastOccurrences(a[1..]);
    var head := if a[0].ElementNode? && a[0] in a[1..] then [] else [a[0]];
    var head2 := if a[0].ElementNode? && a[0] in a[1..] + [x] then [] else [a[0]];
    LastOccurrencesCons(a);
    LastOccurrencesCons(ax);
    HeadAfterSnoc(a[0], a[1..], x);
    WithoutAppend(head, rest, x.handle);
    assert head2 + (Without(rest, x.handle) + [x]) == Without(head + rest, x.handle) + [x];
  }

  /** The inductive step of `LastOccurrencesSnocText`. */
  lemma {:induction false} SnocTextStep(a: seq<Appended>, x: Appended)
    requires |a| > 0 && x.TextNode?
    requires LastOccurrences(a[1..] + [x]) == LastOccurrences(a[1..]) + [x]
    ensures LastOccurrences(a + [x]) == LastOccurrences(a) + [x]
  {
    var ax := a + [x];
    assert ax[0] == a[0];
    assert ax[1..] == a[1..] + [x];
    var rest := LastOccurrences(a[1..]);
    var head := if a[0].ElementNode? && a[0] in a[1..] then [] else [a[0]];
    var head2 := if a[0].ElementNode? && a[0] in a[1..] + [x] then [] else [a[0]];
    LastOccurrencesCons(a);
    LastOccurrencesCons(ax);
    assert a[0] in a[1..] + [x] <==> a[0] in a[1..] || a[0] == x;
    assert head2 + (rest + [x]) == (head + rest) + [x];
  }

  /** One more element at the end leaves its earlier place in the reference
      list and goes last. */
  lemma {:induction false} LastOccurrencesSnocElement(a: seq<Appended>, x: Appended)
    requires x.ElementNode?
    ensures LastOccurrences(a + [x]) == Without(LastOccurrences(a), x.handle) + [x]
  {
    if |a| == 0 {
      assert [] + [x] == [x];
    } else {
      LastOccurrencesSnocElement(a[1..], x);
      SnocElementStep(a, x);
    }
  }

  /** One more text node at the end is simply added to the reference list. */
  lemma {:induction false} LastOccurrencesSnocText(a: seq<Appended>, x: Appended)
    requires x.TextNode?
    ensures LastOccurrences(a + [x]) == LastOccurrences(a) + [x]
  {
    if |a| == 0 {
      assert [] + [x] == [x];
    } else {
      LastOccurrencesSnocText(a[1..], x);
      SnocTextStep(a, x);
    }
  }

  /** One more call at the end does to the reference list what `appendChild`
      does to a child list. */
  lemma {:induction false} LastOccurrencesSnoc(a: seq<Appended>, x: Appended)
    ensures LastOccurrences(a + [x]) == AppendChild(LastOccurrences(a), x)
  {
    if x.ElementNode? {
      LastOccurrencesSnocElement(a, x);
    } else {
      LastOccurrencesSnocText(a, x);
    }
  }

  /** Performing the calls leaves exactly the last occurrence of each
      element, and every text node, in call order. */
  lemma {:induction false} AfterAppendsKeepsLast(calls: seq<Appended>)
    ensures AfterAppends(calls) == LastOccurrences(calls)
    decreases |calls|
  {
    if |calls| > 0 {
      var init := calls[..|calls| - 1];
      var x := calls[|calls| - 1];
      assert calls == init + [x];
      AfterAppendsKeepsLast(init);
      LastOccurrencesSnoc(init, x);
    }
  }

  /** One more call at the end is one more `appendChild`. */
  lemma {:induction false} AfterAppendsSnoc(c: seq<Appended>, x: Appended)
    ensures AfterAppends(c + [x]) == AppendChild(AfterAppends(c), x)
  {
    assert (c + [x])[..|c|] == c;
  }

  /** One more array entry adds its contribution to the calls. */
  lemma {:induction false} CallsSnoc(items: seq<Child>, i: nat)
    requires i < |items|
    ensures Calls(items[..i + 1]) == Calls(items[..i]) + Contribution(items[i])
  {
    CallsAppend(items[..i], [items[i]]);
    assert Calls([items[i]]) == Contribution(items[i]) + Calls([]);
    assert items[..i + 1] == items[..i] + [items[i]];
  }

  /** What the callback does for one array entry. */
  function Visit(kids: seq<Appended>, c: Child): seq<Appended> {
    match c
    case Text(s) => AppendChild(kids, TextNode(s))
    case Node(h) => AppendChild(kids, ElementNode(h))
    case Other => kids
  }

  /** Visiting one more entry performs its call, if it has one. */
  lemma {:induction false} VisitSnoc(calls: seq<Appended>, c: Child)
    ensures AfterAppends(calls + Contribution(c)) == Visit(AfterAppends(calls), c)
  {
    match c
    case Text(s) => AfterAppendsSnoc(calls, TextNode(s));
    case Node(h) => AfterAppendsSnoc(calls, ElementNode(h));
    case Other => assert calls + [] == calls;
  }

  /** The `forEach` over an array: each entry's `appendChild` in turn. */
  method AppendEach(items: seq<Child>) returns (out: seq<Appended>)
    ensures out == AfterAppends(Calls(items))
  {
    out := [];
    var i := 0;
    while i < |items|
      invariant 0 <= i <= |items|
      invariant out == AfterAppends(Calls(items[..i]))
    {
      CallsSnoc(items, i);
      VisitSnoc(Calls(items[..i]), items[i]);
      out := Visit(out, items[i]);
      i := i + 1;
    }
    assert items[..i] == items;
  }

  /** The children branch: an array is walked entry by entry, a lone string
      becomes one text node, anything else adds nothing. */
  method AppendChildren(children: Children) returns (out: seq<Appended>)
    ensures children.Many? ==> out == LastOccurrences(Calls(children.items))
    ensures NoRepeatedElement(out)
    ensures children.Single? ==> out == [TextNode(children.text)]
    ensures children.Absent? ==> out == []
  {
    match children {
      case Many(items) =>
        out := AppendEach(items);
        AfterAppendsKeepsLast(Calls(items));
        LastOccurrencesExact(Calls(items));
      case Single(s) =>
        out := [TextNode(s)];
      case Absent =>
        out := [];
    }
  }
}

=== FILE: jsstring.dfy ===
/** The part of ECMAScript's `String.prototype.trim` that the add guard uses:
    a string is trimmed of the WhiteSpace and LineTerminator code points at
    both ends. */
module JsString {

  /** WhiteSpace (TAB, VT, FF, ZWNBSP and every Zs code point) and
      LineTerminator (LF, CR, LS, PS) as ECMAScript defines them. */
  predicate IsWhitespace(c: char) {
    var n := c as int;
    || n == 0x09 || n == 0x0A || n == 0x0B || n == 0x0C || n == 0x0D
    || n == 0x20 || n == 0xA0 || n == 0x1680
    || (0x2000 <= n <= 0x200A)
    || n == 0x2028 || n == 0x2029 || n == 0x202F || n == 0x205F
    || n == 0x3000 || n == 0xFEFF
  }

  /** True when every character of `s` is whitespace (the empty string included). */
  predicate IsBlank(s: string) {
    forall k :: 0 <= k < |s| ==> IsWhitespace(s[k])
  }

  /** How many whitespace characters `s` starts with. */
  function LeadingBlanks(s: string): (n: nat)
    ensures n <= |s|
    ensures forall k :: 0 <= k < n ==> IsWhitespace(s[k])
    ensures n < |s| ==> !IsWhitespace(s[n])
  {
    if |s| > 0 && IsWhitespace(s[0]) then
      var n := LeadingBlanks(s[1..]);
      assert forall k :: 1 <= k < n + 1 ==> s[k] == s[1..][k - 1];
      n + 1
    else
      0
  }

  /** How many whitespace characters `s` ends with. */
  function TrailingBlanks(s: string): (n: nat)
    ensures n <= |s|
    ensures forall k :: |s| - n <= k < |s| ==> IsWhitespace(s[k])
    ensures n < |s| ==> !IsWhitespace(s[|s| - 1 - n])
  {
    if |s| > 0 && IsWhitespace(s[|s| - 1]) then
      var n := TrailingBlanks(s[..|s| - 1]);
      assert forall k :: 0 <= k < |s| - 1 ==> s[k] == s[..|s| - 1][k];
      n + 1
    else
      0
  }

  /** `s.trim()`: the longest slice of `s` that neither starts nor ends with
      whitespace; it is empty exactly when `s` is blank. */
  function Trim(s: string): (r: string)
    ensures |r| <= |s|
    ensures |r| > 0 ==> !IsWhitespace(r[0]) && !IsWhitespace(r[|r| - 1])
    ensures r == [] <==> IsBlank(s)
    ensures exists i, j :: 0 <= i <= j <= |s| && r == s[i..j] && IsBlank(s[..i]) && IsBlank(s[j..])
  {
    var lead := LeadingBlanks(s);
    var front := s[lead..];
    var trail := TrailingBlanks(front);
    var r := front[..|front| - trail];
    assert r == s[lead..|s| - trail];
    assert IsBlank(s[..lead]);
    assert s[|s| - trail..] == front[|front| - trail..];
    r
  }

  /** The guard `if (value.trim())`: the empty string is falsy. */
  predicate HasText(s: string) {
    Trim(s) != []
  }
}

=== FILE: tasks.dfy ===
/** The task record and the three sequence operations the root component
    performs on its task list: `push`, `find` and `filter`. */
module Tasks {
  import opened Wrappers

  /** One to-do record `{id, text, completed}`. Ids are whatever the caller
      supplied; nothing here assumes they are unique. */
  datatype Task = Task(id: int, text: string, completed: bool)

  /** The record with its `completed` flag negated. */
  function Flip(t: Task): Task {
    t.(completed := !t.completed)
  }

  predicate HasId(ts: seq<Task>, id: int) {
    exists j :: 0 <= j < |ts| && ts[j].id == id
  }

  /** `j` is the position `find` stops at: the first record carrying `id`. */
  predicate IsFirstMatch(ts: seq<Task>, id: int, j: int) {
    && 0 <= j < |ts|
    && ts[j].id == id
    && forall k :: 0 <= k < j ==> ts[k].id != id
  }

  /** `tasks.find(task => task.id === id)`, reported as a position. */
  function FindFirst(ts: seq<Task>, id: int): (r: Option<nat>)
    ensures r.None? <==> !HasId(ts, id)
    ensures r.Some? ==> IsFirstMatch(ts, id, r.value)
  {
    if |ts| == 0 then None
    else if ts[0].id == id then Some(0)
    else
      match FindFirst(ts[1..], id)
      case None =>
        assert forall j :: 1 <= j < |ts| ==> ts[j] == ts[1..][j - 1];
        None
      case Some(i) =>
        assert forall k :: 1 <= k < i + 1 ==> ts[k] == ts[1..][k - 1];
        Some(i + 1)
  }

  /** The in-place `task.completed = !task.completed` on the record `find`
      returned; every other record, and the order, are left alone. */
  function ToggleFirst(ts: seq<Task>, id: int): (r: seq<Task>)
    ensures |r| == |ts|
    ensures forall j :: 0 <= j < |ts| ==> r[j].id == ts[j].id && r[j].text == ts[j].text
    ensures forall j :: 0 <= j < |ts| ==>
              (r[j].completed != ts[j].completed <==> IsFirstMatch(ts, id, j))
  {
    if |ts| == 0 then []
    else if ts[0].id == id then [Flip(ts[0])] + ts[1..]
    else
      var rest := ToggleFirst(ts[1..], id);
      assert forall j :: 1 <= j < |ts| ==>
        (IsFirstMatch(ts, id, j) <==> IsFirstMatch(ts[1..], id, j - 1));
      [ts[0]] + rest
  }

  /** `tasks.filter(task => task.id !== id)`. */
  function RemoveId(ts: seq<Task>, id: int): (r: seq<Task>)
    ensures |r| <= |ts|
    ensures forall k :: 0 <= k < |r| ==> r[k].id != id
    ensures !HasId(ts, id) ==> r == ts
  {
    if |ts| == 0 then []
    else
      var rest := RemoveId(ts[1..], id);
      assert ts == [ts[0]] + ts[1..];
      if ts[0].id == id then rest else [ts[0]] + rest
  }

  /** The positions at or after `lo` whose record does not carry `id`, in
      increasing order: the records `filter` keeps. */
  function KeptFrom(ts: seq<Task>, id: int, lo: nat): (idx: seq<nat>)
    requires lo <= |ts|
    ensures forall k :: 0 <= k < |idx| ==> lo <= idx[k] < |ts| && ts[idx[k]].id != id
    ensures forall k, m :: 0 <= k < m < |idx| ==> idx[k] < idx[m]
    ensures forall j :: lo <= j < |ts| && ts[j].id != id ==> j in idx
    decreases |ts| - lo
  {
    if lo == |ts| then []
    else if ts[lo].id == id then KeptFrom(ts, id, lo + 1)
    else [lo] + KeptFrom(ts, id, lo + 1)
  }

  /** `filter` keeps exactly the records without `id`, in their original
      order: the result lists the records at the positions `KeptFrom` names. */
  lemma {:induction false} RemoveIdSelects(ts: seq<Task>, id: int, lo: nat)
    requires lo <= |ts|
    ensures |RemoveId(ts[lo..], id)| == |KeptFrom(ts, id, lo)|
    ensures forall k :: 0 <= k < |KeptFrom(ts, id, lo)| ==>
              RemoveId(ts[lo..], id)[k] == ts[KeptFrom(ts, id, lo)[k]]
    decreases |ts| - lo
  {
    if lo < |ts| {
      var tail := ts[lo..];
      assert tail[1..] == ts[lo + 1..];
      RemoveIdSelects(ts, id, lo + 1);
      var rest := RemoveId(ts[lo + 1..], id);
      var idx := KeptFrom(ts, id, lo + 1);
      if ts[lo].id == id {
        assert RemoveId(tail, id) == rest;
        assert KeptFrom(ts, id, lo) == idx;
      } else {
        var r := RemoveId(tail, id);
        assert r == [ts[lo]] + rest;
        assert KeptFrom(ts, id, lo) == [lo] + idx;
        forall k | 0 <= k < |[lo] + idx|
          ensures r[k] == ts[([lo] + idx)[k]]
        {
          if k > 0 {
            assert r[k] == rest[k - 1];
            assert ([lo] + idx)[k] == idx[k - 1];
          }
        }
      }
    }
  }

  /** The records `filter` keeps are exactly the records of the list whose
      id differs. */
  lemma {:induction false} RemoveIdMembers(ts: seq<Task>, id: int)
    ensures forall t :: t in RemoveId(ts, id) <==> t in ts && t.id != id
  {
    var r := RemoveId(ts, id);
    var idx := KeptFrom(ts, id, 0);
    RemoveIdSelects(ts, id, 0);
    assert ts[0..] == ts;
    forall t | t in ts && t.id != id ensures t in r {
      var j :| 0 <= j < |ts| && ts[j] == t;
      var k :| 0 <= k < |idx| && idx[k] == j;
      assert r[k] == t;
    }
    forall t | t in r ensures t in ts {
      var k :| 0 <= k < |r| && r[k] == t;
      assert ts[idx[k]] == t;
    }
  }

  /** Toggling is an update at the position `find` reports, or nothing at all
      when no record carries the id. */
  lemma ToggleFirstAtFind(ts: seq<Task>, id: int)
    ensures FindFirst(ts, id).None? ==> ToggleFirst(ts, id) == ts
    ensures FindFirst(ts, id).Some? ==>
              var i := FindFirst(ts, id).value;
              ToggleFirst(ts, id) == ts[i := Flip(ts[i])]
  {
    var r := ToggleFirst(ts, id);
    match FindFirst(ts, id)
    case None =>
      forall j | 0 <= j < |ts| ensures r[j] == ts[j] {
        assert !IsFirstMatch(ts, id, j);
      }
    case Some(i) =>
      var u := ts[i := Flip(ts[i])];
      forall j | 0 <= j < |ts| ensures r[j] == u[j] {
        if j != i {
          assert !IsFirstMatch(ts, id, j);
        }
      }
  }

  /** Toggling the same id twice restores the list: the first toggle does
      not change which record is the first match. */
  lemma {:induction false} ToggleTwice(ts: seq<Task>, id: int)
    ensures ToggleFirst(ToggleFirst(ts, id), id) == ts
  {
    if |ts| > 0 && ts[0].id != id {
      ToggleTwice(ts[1..], id);
      assert ToggleFirst(ts, id)[1..] == ToggleFirst(ts[1..], id);
    }
  }
}

=== FILE: todolist.dfy ===
/** The root component's state: the canonical task list and the storage slot
    under the key "tasks" that every change of the list overwrites. */
module TodoList {
  import opened Wrappers
  import opened Tasks

  /** `tasks` is the in-memory list; `stored` is what the storage slot holds,
      already parsed (`None` when the key has never been written). */
  datatype State = State(tasks: seq<Task>, stored: Option<seq<Task>>)

  /** The three sample records used when nothing has been saved. */
  const Seed: seq<Task> := [
    Task(1, "Сделать домашку", false),
    Task(2, "Сделать практику", false),
    Task(3, "Пойти домой", false)
  ]

  /** The constructor: the saved list when there is one, the seed otherwise.
      Loading never writes the slot. */
  function Init(saved: Option<seq<Task>>): (s: State)
    ensures s.stored == saved
    ensures saved.Some? ==> s.tasks == saved.value
    ensures saved.None? ==>
              && |s.tasks| == 3
              && forall k :: 0 <= k < |s.tasks| ==> s.tasks[k].id == k + 1 && !s.tasks[k].completed
  {
    match saved
    case Some(ts) => State(ts, saved)
    case None => State(Seed, saved)
  }

  /** `saveToLocalStorage`: the whole list overwrites the slot. */
  function Save(s: State): State {
    s.(stored := Some(s.tasks))
  }

  /** `onAddTask(text)`: one new incomplete record at the end, then a save.
      `id` stands for the clock reading the source uses. */
  function OnAddTask(s: State, id: int, text: string): (r: State)
    ensures |r.tasks| == |s.tasks| + 1
    ensures r.tasks[..|s.tasks|] == s.tasks
    ensures r.tasks[|s.tasks|] == Task(id, text, false)
    ensures r.stored == Some(r.tasks)
  {
    Save(s.(tasks := s.tasks + [Task(id, text, false)]))
  }

  /** `onToggleTask(id)`: with a record carrying `id`, flip the first such
      record and save; without one, nothing happens and nothing is saved. */
  function OnToggleTask(s: State, id: int): (r: State)
    ensures !HasId(s.tasks, id) ==> r == s
    ensures HasId(s.tasks, id) ==> r.stored == Some(r.tasks)
    ensures |r.tasks| == |s.tasks|
    ensures forall j :: 0 <= j < |s.tasks| ==>
              && r.tasks[j].id == s.tasks[j].id
              && r.tasks[j].text == s.tasks[j].text
              && (r.tasks[j].completed != s.tasks[j].completed <==> IsFirstMatch(s.tasks, id, j))
  {
    match FindFirst(s.tasks, id)
    case None => s
    case Some(_) => Save(s.(tasks := ToggleFirst(s.tasks, id)))
  }

  /** `onDeleteTask(id)`: drop every record carrying `id`, then save, even
      when no record carried it. */
  function OnDeleteTask(s: State, id: int): (r: State)
    ensures forall t :: t in r.tasks <==> t in s.tasks && t.id != id
    ensures |r.tasks| == |KeptFrom(s.tasks, id, 0)|
    ensures forall k :: 0 <= k < |r.tasks| ==> r.tasks[k] == s.tasks[KeptFrom(s.tasks, id, 0)[k]]
    ensures !HasId(s.tasks, id) ==> r.tasks == s.tasks
    ensures r.stored == Some(r.tasks)
  {
    RemoveIdMembers(s.tasks, id);
    RemoveIdSelects(s.tasks, id, 0);
    assert s.tasks[0..] == s.tasks;
    Save(s.(tasks := RemoveId(s.tasks, id)))
  }

  /** The slot agrees with memory: it holds the list, or it was never written
      and the list is still the seed. */
  predicate Synced(s: State) {
    match s.stored
    case None => s.tasks == Seed
    case Some(saved) => saved == s.tasks
  }

  /** Reloading the page from the slot rebuilds exactly the current state. */
  lemma ReloadRestores(s: State)
    requires Synced(s)
    ensures Init(s.stored) == s
  {
  }

  /** Every handler leaves the slot agreeing with memory. */
  lemma HandlersKeepSynced(s: State, id: int, text: string)
    requires Synced(s)
    ensures Synced(Init(s.stored))
    ensures Synced(OnAddTask(s, id, text))
    ensures Synced(OnToggleTask(s, id))
    ensures Synced(OnDeleteTask(s, id))
  {
  }

  /** Toggling the same id twice gives back the list it started from. */
  lemma ToggleTwiceRestores(s: State, id: int)
    ensures OnToggleTask(OnToggleTask(s, id), id).tasks == s.tasks
  {
    ToggleTwice(s.tasks, id);
    if HasId(s.tasks, id) {
      var i := FindFirst(s.tasks, id).value;
      assert OnToggleTask(s, id).tasks[i].id == id;
    }
  }
}

=== FILE: wrappers.dfy ===
/** The optional value used for the storage slot and for the requests a
    component hands to its parent. */
module Wrappers {

  datatype Option<+T> = None | Some(value: T)
}
